=== FILE: README.md ===
# Image board client: auth decisions and zoom gestures, modelled in Dafny

This project models the two parts of the Android image-board client that have
logic of their own once the backend SDK and the UI toolkit are abstracted
away.

* **Auth repository** (`auth.dfy`, `usernames.dfy`). The backend is the
  current session (user id, e-mail, confirmed flag) plus the `profiles` table
  as a map from user id to row `{id, username, full_name, role}`. Every
  remote call is a step the caller supplies. Profile select, profile insert,
  sign-out and the password-reset request either complete, with an effect
  the model fixes, or throw. Sign-up, sign-in and session refresh are
  decided by the auth server, so their step is the server's answer or the
  exception. For sign-in and refresh the answer is the session held
  afterwards. For sign-up it is the session the server returned, if any;
  when there is none, the model keeps the session already held. Operations are pure
  functions from a backend to a `Step` holding the answer and the backend
  left behind. The answer is `Success`/`Error`, a boolean or an optional
  value, as in the repository. The shared check-then-insert repair is
  `RepairProfile`. The two made-up usernames live in `usernames.dfy`:
  `anon-` plus eight draws from a 36-character alphabet, and the e-mail's
  text before the first `@` with `.` replaced by `_`.
* **Image zoom dialog** (`zoom.dfy`). The view state is `(scale, offset)`
  over reals. The pinch/pan callback, single tap, double tap, close button,
  platform dismiss request and image change are each a pure transition that
  returns the next state and whether the dialog asks to be dismissed. The
  invariant `1 <= scale <= 5 && (scale == 1 ==> offset == 0)` holds in every
  state reachable from the initial one.

`wrappers.dfy` holds `Option` (Kotlin's nullable values) and the two-variant
`Result`, whose error carries the exception's message.

When a sign-in succeeds but the e-mail is unconfirmed, `signIn` signs the
user out and returns `Error("Email not confirmed")`
(`AuthRepository.kt`, lines 126-129). That sign-out is itself a remote call.
If it throws, the outer catch returns that exception instead (lines
162-163), so "no session afterwards" is guaranteed only when the sign-out
completes. In the throwing case the model keeps the session.

## Model

| member | source | states |
|---|---|---|
| Usernames.AnonUsername | app/src/main/java/com/sample/image_board/data/repository/AuthRepository.kt:24-28 | the generated name has the pattern `anon-` plus 8 alphabet characters (length 13), and character 5+k is the alphabet letter of draw k |
| Usernames.Pick | app/src/main/java/com/sample/image_board/data/repository/AuthRepository.kt:26 | mapping the draws to characters and joining them gives one character per draw, in draw order |
| Usernames.EveryAnonUsernameIsGenerated | app/src/main/java/com/sample/image_board/data/repository/AuthRepository.kt:24-28 | every string of the pattern `anon-[a-z0-9]{8}` is produced by some valid draws, so the pattern is exactly the generator's range |
| Usernames.IndexOf | app/src/main/java/com/sample/image_board/data/repository/AuthRepository.kt:142 | the position of the first occurrence of the character, or -1 exactly when it does not occur |
| Usernames.SubstringBefore | app/src/main/java/com/sample/image_board/data/repository/AuthRepository.kt:142 | the result is a prefix free of the delimiter, followed in the input by the delimiter when it occurs, and is the whole input otherwise |
| Usernames.Replace | app/src/main/java/com/sample/image_board/data/repository/AuthRepository.kt:142 | same length as the input; each position holds the replacement where the input held the target and the input character otherwise |
| Usernames.FallbackUsername | app/src/main/java/com/sample/image_board/data/repository/AuthRepository.kt:200-201 | the fallback name contains no `.` and no `@`, has the length of the text before the first `@`, and matches the e-mail position by position with `.` turned to `_` |
| Usernames.FallbackOfAddress | app/src/main/java/com/sample/image_board/data/repository/AuthRepository.kt:142 | for `local@domain` with no `@` in `local`, the fallback is `local` with dots replaced, whatever the domain holds |
| AuthRepository.InsertsAtMostKeepsRows | app/src/main/java/com/sample/image_board/data/repository/AuthRepository.kt:92-102 | a repair leaves every existing row unchanged, adds no key but the user's, and keeps rows stored under their own ids |
| AuthRepository.RepairProfile | app/src/main/java/com/sample/image_board/data/repository/AuthRepository.kt:86-108 | when the select completes and no row exists, it inserts exactly when the insert completes, adding the member row with `full_name == username`; an existing row is never touched; a throwing select or a throwing insert changes nothing |
| AuthRepository.RefreshSession | app/src/main/java/com/sample/image_board/data/repository/AuthRepository.kt:50-62 | the stored session becomes the one the refresh produced; Success(s) exactly when that is a session s; none gives Error("Failed to refresh session."); a throw gives Error and no change |
| AuthRepository.SignUp | app/src/main/java/com/sample/image_board/data/repository/AuthRepository.kt:68-115 | Success whenever the sign-up call succeeds, whatever the repair calls do; Error and no change when it throws; at most one new row, an anonymous member row for the signed-in user, and none when the select or the insert throws; whenever a session is held afterwards, whether returned or already held, a completing select and insert leave a row for that user |
| AuthRepository.SignIn | app/src/main/java/com/sample/image_board/data/repository/AuthRepository.kt:118-165 | Success exactly when sign-in succeeds with a confirmed e-mail; unconfirmed gives an error, inserts no row, and with a completing sign-out gives Error("Email not confirmed") and no session; confirmed inserts at most the fallback-named member row, none when the select or the insert throws, and with a completing select and insert the user has a row afterwards |
| AuthRepository.SignOut | app/src/main/java/com/sample/image_board/data/repository/AuthRepository.kt:168-175 | Success exactly when the sign-out completes, and then no session is left; rows are unchanged |
| AuthRepository.SessionFallbackUsername | app/src/main/java/com/sample/image_board/data/repository/AuthRepository.kt:200-201 | a null session e-mail gives `user`; otherwise the name has exactly the length of the text before the first `@` (the whole e-mail when it has none), matches the e-mail position by position with `.` turned to `_`, and contains no `.` and no `@` |
| AuthRepository.EnsureProfileExists | app/src/main/java/com/sample/image_board/data/repository/AuthRepository.kt:188-222 | false with no session and nothing changed; with a session, a completing select and insert always give true, and a throwing insert on a missing row gives false with nothing changed; true exactly when the select completes and a row for the user exists afterwards; false never changes the backend; at most the user's fallback-named row is added |
| AuthRepository.EnsureProfileNamesRowAfterLocalPart | app/src/main/java/com/sample/image_board/data/repository/AuthRepository.kt:198-211 | for a session e-mail `local@domain` and no row, completing calls answer true and add exactly the member row named after `local` with dots replaced |
| AuthRepository.EnsureProfileExistsIdempotent | app/src/main/java/com/sample/image_board/data/repository/AuthRepository.kt:188-222 | after a true answer, a second call changes nothing whatever its remote steps do, and answers true unless its select throws |
| AuthRepository.GetUserRole | app/src/main/java/com/sample/image_board/data/repository/AuthRepository.kt:228-241 | Success(null) without a session; Error exactly when the select throws; a role exactly when the user's row exists, and then it is that row's role |
| AuthRepository.IsAdmin | app/src/main/java/com/sample/image_board/data/repository/AuthRepository.kt:244-249 | true exactly when getUserRole is Success with role `admin`; Error maps to false |
| AuthRepository.IsAdminExactlyForAdminRow | app/src/main/java/com/sample/image_board/data/repository/AuthRepository.kt:244-249 | isAdmin holds exactly when a session exists, the select completes and the user's row has role `admin` |
| AuthRepository.GetCurrentUsername | app/src/main/java/com/sample/image_board/data/repository/AuthRepository.kt:252-265 | a username exactly when the session, the completed select and the row all exist, and then it is the row's username |
| AuthRepository.SendPasswordResetEmail | app/src/main/java/com/sample/image_board/data/repository/AuthRepository.kt:268-275 | Success exactly when the reset request completes, otherwise the request's error |
| AuthRepository.UnconfirmedSignInLeavesNoSession | app/src/main/java/com/sample/image_board/data/repository/AuthRepository.kt:126-130 | an unconfirmed sign-in with a completing sign-out leaves no session, no new row, no role, no admin rights, and makes a later repair answer false |
| AuthRepository.SignInKeepsExistingRole | app/src/main/java/com/sample/image_board/data/repository/AuthRepository.kt:136-140 | a confirmed sign-in of a user who has a row inserts nothing, and getUserRole then returns the row's role unchanged |
| AuthRepository.SignUpCreatesAnonymousMember | app/src/main/java/com/sample/image_board/data/repository/AuthRepository.kt:84-104 | a sign-up that opens a session for a user without a row, with both repair calls completing, leaves a member row named `anon-[a-z0-9]{8}` with equal full name |
| AuthRepository.SignInNamesRowAfterLocalPart | app/src/main/java/com/sample/image_board/data/repository/AuthRepository.kt:140-152 | a confirmed sign-in of `local@domain` for a user without a row, both repair calls completing, adds exactly the member row named after `local` with dots replaced |
| AuthRepository.RefreshSessionSetsCurrentUser | app/src/main/java/com/sample/image_board/data/repository/AuthRepository.kt:50-62 | after a successful refresh the current user is the refreshed session's user; a refresh that leaves no session answers the refresh error, and then no user and no role are seen |
| AuthRepository.OperationsKeepRowsKeyed | app/src/main/java/com/sample/image_board/data/repository/AuthRepository.kt:94-101 | no operation stores a row under a key other than the row's own id |
| ImageZoom.CoerceIn | app/src/main/java/com/sample/image_board/ui/components/ImageZoomDialog.kt:83 | the result lies in [lo, hi], is the input when that already does, and is the nearer bound otherwise |
| ImageZoom.OnTransform | app/src/main/java/com/sample/image_board/ui/components/ImageZoomDialog.kt:82-91 | for any zoom factor the new scale lies in [1, 5] and is the product when that is in range; while zoomed in the offset moves by the pan, at scale 1 it is reset to zero |
| ImageZoom.OnDoubleTap | app/src/main/java/com/sample/image_board/ui/components/ImageZoomDialog.kt:55-64 | zoomed in: back to scale 1 and offset zero; otherwise scale 2.5 with the offset unchanged |
| ImageZoom.Step | app/src/main/java/com/sample/image_board/ui/components/ImageZoomDialog.kt:32-91 | a tap dismisses exactly when scale is at most 1 and never moves the view; close button and dismiss request dismiss unconditionally; an image change resets to rest; a pinch/pan applies the transform handler and a double tap the double-tap handler, and neither dismisses |
| ImageZoom.StepKeepsInvariant | app/src/main/java/com/sample/image_board/ui/components/ImageZoomDialog.kt:28-91 | every event preserves `1 <= scale <= 5 && (scale == 1 ==> offset == 0)` |
| ImageZoom.Run | app/src/main/java/com/sample/image_board/ui/components/ImageZoomDialog.kt:28-91 | running events until the first dismissal preserves the invariant, and a run of pinch/pan events never dismisses |
| ImageZoom.ReachableViewsSatisfyInvariant | app/src/main/java/com/sample/image_board/ui/components/ImageZoomDialog.kt:28-35 | from the initial state (scale 1, offset zero) every event sequence ends in a state with the invariant, so the scale is in [1, 5] |
| ImageZoom.TapDismissesExactlyAtRest | app/src/main/java/com/sample/image_board/ui/components/ImageZoomDialog.kt:50-54 | in any reachable state, a single tap dismisses exactly when the view is at rest, never while zoomed |
| ImageZoom.DoubleTapToggles | app/src/main/java/com/sample/image_board/ui/components/ImageZoomDialog.kt:55-64 | double tap toggles: at rest it goes to (2.5, zero) and a second double tap returns to rest |
| ImageZoom.PinchSequenceStaysInBounds | app/src/main/java/com/sample/image_board/ui/components/ImageZoomDialog.kt:82-91 | from any state, even one outside the invariant, a non-empty run of pinch/pan events with any factors ends with the scale in [1, 5] and centred at scale 1 |

## Left out

- `SupabaseClient.kt`: the lazy process-wide client singleton and its module installation are I/O setup. They have no decisions to model.
- `Theme.kt` and `Color.kt`: constant palettes and theme wiring.
- Backend SDK semantics are abstracted to one caller-supplied step per remote call. This covers the network, token storage and refresh, query building, JSON metadata and JSON decoding.
- The server-side trigger that fills `profiles` on sign-up is not modelled. Any row it would have written must already be in the backend the operation starts from.
- Password arguments, and the e-mail argument of sign-up, go only to the auth server. Their effect is the server's answer, so they are not parameters.
- `getCurrentSession`, `isEmailVerified`, `getCurrentUserId` and `getCurrentUserEmail` are plain session reads. The model reads `Backend.session` directly, and two of these reads are helpers without contracts of their own: `CurrentUserId` and `IsEmailVerified`.
- `getAccessToken`: tokens are not part of the session model.
- `kotlin.random.Random` is replaced by eight caller-supplied draws in [0, 36).
- Coroutines are left out: calls are sequential and atomic. The race between two clients doing check-then-insert is not modelled.
- `println` logging is left out. So are the tap position passed to the double-tap handler and the rotation passed to the transform callback. The source ignores both, so `Transform` carries only the zoom and pan changes.
- Floating-point rounding of `scale * zoomChange` is left out: scale and offset are reals.
- Compose rendering, image loading and gesture recognition are left out. Events arrive already recognised.
- AuthRepository.SignIn: when its sign-out call throws, the model keeps the signed-in session. The SDK's local-session behaviour on a failed sign-out is not visible here, so the contract promises "no session" only when the sign-out completes.

=== FILE: auth.dfy ===
/** The decision logic of the auth repository over an abstract backend.

    The backend is the current session plus the `profiles` table, keyed by
    user id. Every remote call is a step supplied by the caller: for the calls
    whose effect the repository fixes (profile select, profile insert,
    sign-out, password-reset request) the step only says whether the call
    completes or throws; for the calls whose effect the auth server decides
    (sign-up, sign-in, session refresh) the step is the server's answer. All
    calls are sequential and atomic. */
module AuthRepository {
  import opened Wrappers
  import Usernames

  type UserId = string

  /** The fields of the SDK's session the repository reads. */
  datatype Session = Session(userId: UserId, email: Option<string>, emailConfirmed: bool)

  /** A row of the `profiles` table. */
  datatype Profile = Profile(id: UserId, username: string, fullName: string, role: string)

  datatype Backend = Backend(session: Option<Session>, profiles: map<UserId, Profile>)

  /** Outcome of a remote call whose effect on the backend the model fixes. */
  datatype Call = Completes | Throws(message: string)

  /** What an operation returns, together with the backend it leaves behind. */
  datatype Step<+T> = Step(out: T, after: Backend)

  const MemberRole: string := "member"
  const AdminRole: string := "admin"
  const EmailNotConfirmed: string := "Email not confirmed"
  const RefreshFailed: string := "Failed to refresh session."
  /** Used in place of a session e-mail that is null. */
  const MissingEmail: string := "user"

  /** Every row is stored under its own id. */
  predicate WellKeyed(profiles: map<UserId, Profile>) {
    forall id :: id in profiles ==> profiles[id].id == id
  }

  /** The row the client writes when it repairs a missing profile. */
  function NewProfile(id: UserId, username: string): (p: Profile)
    ensures p.id == id && p.username == username && p.fullName == username && p.role == MemberRole
  {
    Profile(id, username, username, MemberRole)
  }

  /** `after` is `before`, or `before` with a row for the absent `id` added;
      in both cases no existing row changes. */
  predicate InsertsAtMost(before: map<UserId, Profile>, after: map<UserId, Profile>, id: UserId, username: string) {
    after == before || (id !in before && after == before[id := NewProfile(id, username)])
  }

  lemma InsertsAtMostKeepsRows(before: map<UserId, Profile>, after: map<UserId, Profile>, id: UserId, username: string)
    requires InsertsAtMost(before, after, id, username)
    ensures forall k :: k in before ==> k in after && after[k] == before[k]
    ensures forall k :: k in after ==> k in before || k == id
    ensures WellKeyed(before) ==> WellKeyed(after)
  {
  }

  // ---------------------------------------------------------------------------
  // Session accessors
  // ---------------------------------------------------------------------------

  function CurrentUserId(b: Backend): Option<UserId> {
    if b.session.Some? then Some(b.session.value.userId) else None
  }

  function IsEmailVerified(b: Backend): bool {
    b.session.Some? && b.session.value.emailConfirmed
  }

  function SignedOut(b: Backend): Backend {
    b.(session := None)
  }

  // ---------------------------------------------------------------------------
  // Check-then-insert profile repair (shared by signUp, signIn and
  // ensureProfileExists)
  // ---------------------------------------------------------------------------

  datatype Repair = Found | Inserted | LookupFailed(message: string) | InsertFailed(message: string)

  /** Select the row for `id`; when there is none, insert a member row named
      `username`. */
  function RepairProfile(b: Backend, id: UserId, username: string, lookup: Call, insert: Call): (r: Step<Repair>)
    ensures r.after.session == b.session
    ensures InsertsAtMost(b.profiles, r.after.profiles, id, username)
    ensures id in b.profiles ==> r.after == b
    ensures r.out.Inserted? <==> id !in b.profiles && id in r.after.profiles
    ensures r.out.Found? <==> lookup.Completes? && id in b.profiles
    ensures r.out.Found? || r.out.Inserted? <==> lookup.Completes? && id in r.after.profiles
    ensures lookup.Throws? ==> r == Step(LookupFailed(lookup.message), b)
    ensures lookup.Completes? && id !in b.profiles ==> (r.out.Inserted? <==> insert.Completes?)
    ensures insert.Throws? && id !in b.profiles && lookup.Completes? ==> r == Step(InsertFailed(insert.message), b)
    ensures !r.out.Inserted? ==> r.after == b
  {
    match lookup
    case Throws(m) => Step(LookupFailed(m), b)
    case Completes =>
      if id in b.profiles then Step(Found, b)
      else
        match insert
        case Throws(m) => Step(InsertFailed(m), b)
        case Completes => Step(Inserted, b.(profiles := b.profiles[id := NewProfile(id, username)]))
  }

  // ---------------------------------------------------------------------------
  // Repository operations
  // ---------------------------------------------------------------------------

  /** refreshSession: `reply` is the session the SDK holds once the refresh
      call returns, or the exception it throws. */
  function RefreshSession(b: Backend, reply: Result<Option<Session>>): (r: Step<Result<Session>>)
    ensures r.after.profiles == b.profiles
    ensures reply.Error? ==> r == Step(Error(reply.message), b)
    ensures r.out.Success? <==> reply.Success? && reply.data.Some?
    ensures r.out.Success? ==> r.after.session == Some(r.out.data)
    ensures reply.Success? && r.after.session.None? ==> r.out == Error(RefreshFailed)
    ensures reply.Success? ==> r.after == b.(session := reply.data)
  {
    match reply
    case Error(m) => Step(Error(m), b)
    case Success(current) =>
      var refreshed := b.(session := current);
      if current.Some? then Step(Success(current.value), refreshed)
      else Step(Error(RefreshFailed), refreshed)
  }

  /** signUp: `reply` is the sign-up call's answer: the session the server
      returned, if any, or the exception. When no session is returned the
      session already held is kept, and it is that user's row the repair
      looks for. A failure of the profile repair never reaches the caller. */
  function SignUp(b: Backend, draws: seq<int>, reply: Result<Option<Session>>, lookup: Call, insert: Call): (r: Step<Result<()>>)
    requires Usernames.ValidDraws(draws)
    ensures reply.Error? ==> r == Step(Error(reply.message), b)
    ensures reply.Success? ==> r.out == Success(())
    ensures reply.Success? ==> r.after.session == (if reply.data.Some? then reply.data else b.session)
    ensures r.after.session.None? ==> r.after.profiles == b.profiles
    ensures r.after.session.Some? ==>
              InsertsAtMost(b.profiles, r.after.profiles, r.after.session.value.userId, Usernames.AnonUsername(draws))
    ensures lookup.Throws? || insert.Throws? ==> r.after.profiles == b.profiles
    ensures reply.Success? && r.after.session.Some? && lookup.Completes? && insert.Completes? ==>
              r.after.session.value.userId in r.after.profiles
  {
    var autoUsername := Usernames.AnonUsername(draws);
    match reply
    case Error(m) => Step(Error(m), b)
    case Success(returned) =>
      var signedUp := if returned.Some? then b.(session := returned) else b;
      match CurrentUserId(signedUp)
      case None => Step(Success(()), signedUp)
      case Some(id) => Step(Success(()), RepairProfile(signedUp, id, autoUsername, lookup, insert).after)
  }

  /** signIn: `reply` is the session the sign-in call established, or the
      exception; `signOut` is the outcome of the sign-out issued when the
      e-mail is unconfirmed. */
  function SignIn(b: Backend, email: string, reply: Result<Session>, signOut: Call, lookup: Call, insert: Call): (r: Step<Result<()>>)
    ensures r.out.Success? <==> reply.Success? && reply.data.emailConfirmed
    ensures reply.Error? ==> r == Step(Error(reply.message), b)
    ensures reply.Success? && !reply.data.emailConfirmed ==> r.after.profiles == b.profiles
    ensures reply.Success? && !reply.data.emailConfirmed && signOut.Completes? ==>
              r == Step(Error(EmailNotConfirmed), SignedOut(b))
    ensures reply.Success? && !reply.data.emailConfirmed && signOut.Throws? ==>
              r.out == Error(signOut.message)
    ensures reply.Success? && reply.data.emailConfirmed ==>
              && r.after.session == Some(reply.data)
              && InsertsAtMost(b.profiles, r.after.profiles, reply.data.userId, Usernames.FallbackUsername(email))
    ensures lookup.Throws? || insert.Throws? ==> r.after.profiles == b.profiles
    ensures reply.Success? && reply.data.emailConfirmed && lookup.Completes? && insert.Completes? ==>
              reply.data.userId in r.after.profiles
  {
    match reply
    case Error(m) => Step(Error(m), b)
    case Success(s) =>
      var signedIn := b.(session := Some(s));
      if !IsEmailVerified(signedIn) then
        match signOut
        case Throws(m) => Step(Error(m), signedIn)
        case Completes => Step(Error(EmailNotConfirmed), SignedOut(signedIn))
      else
        var autoUsername := Usernames.FallbackUsername(email);
        Step(Success(()), RepairProfile(signedIn, s.userId, autoUsername, lookup, insert).after)
  }

  /** signOut. */
  function SignOut(b: Backend, call: Call): (r: Step<Result<()>>)
    ensures r.after.profiles == b.profiles
    ensures r.out.Success? <==> call.Completes?
    ensures r.out.Success? ==> r.after.session.None?
    ensures call.Throws? ==> r == Step(Error(call.message), b)
  {
    match call
    case Throws(m) => Step(Error(m), b)
    case Completes => Step(Success(()), SignedOut(b))
  }

  /** The username a repair derives from the session's e-mail; a null
      e-mail counts as `user`. */
  function SessionFallbackUsername(s: Session): (r: string)
    ensures '.' !in r && '@' !in r
    ensures s.email.None? ==> r == MissingEmail
    ensures s.email.Some? ==>
              && |r| == |Usernames.SubstringBefore(s.email.value, '@')| <= |s.email.value|
              && forall i :: 0 <= i < |r| ==> r[i] == (if s.email.value[i] == '.' then '_' else s.email.value[i])
  {
    Usernames.FallbackUsername(s.email.GetOr(MissingEmail))
  }

  /** ensureProfileExists: true when a row for the signed-in user is known to
      exist, pre-existing or just inserted; false on no session or any failure. */
  function EnsureProfileExists(b: Backend, lookup: Call, insert: Call): (r: Step<bool>)
    ensures r.after.session == b.session
    ensures b.session.None? ==> r == Step(false, b)
    ensures !r.out ==> r.after == b
    ensures b.session.Some? && lookup.Completes? && insert.Completes? ==> r.out
    ensures b.session.Some? && lookup.Completes? && insert.Throws? && b.session.value.userId !in b.profiles ==>
              r == Step(false, b)
    ensures r.out <==> b.session.Some? && lookup.Completes? && b.session.value.userId in r.after.profiles
    ensures b.session.Some? ==>
              InsertsAtMost(b.profiles, r.after.profiles, b.session.value.userId, SessionFallbackUsername(b.session.value))
  {
    match b.session
    case None => Step(false, b)
    case Some(user) =>
      var repair := RepairProfile(b, user.userId, SessionFallbackUsername(user), lookup, insert);
      match repair.out
      case Found => Step(true, repair.after)
      case Inserted => Step(true, repair.after)
      case LookupFailed(_) => Step(false, repair.after)
      case InsertFailed(_) => Step(false, repair.after)
  }

  /** getUserRole: `Success(None)` when nobody is signed in or the user has no
      row, `Error` when the select throws. */
  function GetUserRole(b: Backend, lookup: Call): (r: Result<Option<string>>)
    ensures b.session.None? ==> r == Success(None)
    ensures r.Error? <==> b.session.Some? && lookup.Throws?
    ensures r.Success? && r.data.Some? <==>
              b.session.Some? && lookup.Completes? && b.session.value.userId in b.profiles
    ensures r.Success? && r.data.Some? ==> r.data.value == b.profiles[b.session.value.userId].role
  {
    match CurrentUserId(b)
    case None => Success(None)
    case Some(id) =>
      match lookup
      case Throws(m) => Error(m)
      case Completes => Success(if id in b.profiles then Some(b.profiles[id].role) else None)
  }

  /** isAdmin: a failed role lookup reads as "not an admin". */
  function IsAdmin(b: Backend, lookup: Call): (r: bool)
    ensures r <==> GetUserRole(b, lookup) == Success(Some(AdminRole))
  {
    match GetUserRole(b, lookup)
    case Success(role) => role == Some(AdminRole)
    case Error(_) => false
  }

  /** getCurrentUsername: null on no session, no row, or a failed select. */
  function GetCurrentUsername(b: Backend, lookup: Call): (r: Option<string>)
    ensures r.Some? <==> b.session.Some? && lookup.Completes? && b.session.value.userId in b.profiles
    ensures r.Some? ==> r.value == b.profiles[b.session.value.userId].username
  {
    match CurrentUserId(b)
    case None => None
    case Some(id) =>
      match lookup
      case Throws(_) => None
      case Completes => if id in b.profiles then Some(b.profiles[id].username) else None
  }

  /** sendPasswordResetEmail. */
  function SendPasswordResetEmail(email: string, call: Call): (r: Result<()>)
    ensures r.Success? <==> call.Completes?
    ensures call.Throws? ==> r == Error(call.message)
  {
    match call
    case Throws(m) => Error(m)
    case Completes => Success(())
  }

  // ---------------------------------------------------------------------------
  // Properties relating several calls
  // ---------------------------------------------------------------------------

  /** isAdmin is true exactly when the signed-in user's row has the admin role
      and the select completes. */
  lemma IsAdminExactlyForAdminRow(b: Backend, lookup: Call)
    ensures IsAdmin(b, lookup) <==>
              && b.session.Some? && lookup.Completes?
              && b.session.value.userId in b.profiles
              && b.profiles[b.session.value.userId].role == AdminRole
  {
  }

  /** Once ensureProfileExists has answered true, calling it again inserts
      nothing, whatever the second call's remote steps do, and answers true
      unless its select throws. */
  lemma EnsureProfileExistsIdempotent(b: Backend, lookup1: Call, insert1: Call, lookup2: Call, insert2: Call)
    ensures var first := EnsureProfileExists(b, lookup1, insert1);
            first.out ==>
              && EnsureProfileExists(first.after, lookup2, insert2).after == first.after
              && (EnsureProfileExists(first.after, lookup2, insert2).out <==> lookup2.Completes?)
  {
  }

  /** A sign-in with an unconfirmed e-mail whose sign-out completes leaves
      nobody signed in: no role, no admin rights, no repair possible. */
  lemma UnconfirmedSignInLeavesNoSession(b: Backend, email: string, s: Session, lookup: Call, insert: Call, lookup2: Call, insert2: Call)
    requires !s.emailConfirmed
    ensures var r := SignIn(b, email, Success(s), Completes, lookup, insert);
            && r.out == Error(EmailNotConfirmed)
            && r.after.session.None?
            && r.after.profiles == b.profiles
            && GetUserRole(r.after, lookup2) == Success(None)
            && !IsAdmin(r.after, lookup2)
            && EnsureProfileExists(r.after, lookup2, insert2) == Step(false, r.after)
  {
  }

  /** Sign-in of a confirmed user who already has a row inserts nothing and
      keeps the role the row had. */
  lemma SignInKeepsExistingRole(b: Backend, email: string, s: Session, signOut: Call, lookup: Call, insert: Call)
    requires s.emailConfirmed && s.userId in b.profiles
    ensures var r := SignIn(b, email, Success(s), signOut, lookup, insert);
            && r.out == Success(())
            && r.after.profiles == b.profiles
            && GetUserRole(r.after, Completes) == Success(Some(b.profiles[s.userId].role))
  {
  }

  /** A sign-up that creates a session for a user without a row, with both
      repair calls completing, leaves an anonymous member row for that user. */
  lemma SignUpCreatesAnonymousMember(b: Backend, draws: seq<int>, s: Session)
    requires Usernames.ValidDraws(draws) && s.userId !in b.profiles
    ensures var r := SignUp(b, draws, Success(Some(s)), Completes, Completes);
            && r.out == Success(())
            && s.userId in r.after.profiles
            && var row := r.after.profiles[s.userId];
            && Usernames.IsAnonUsername(row.username)
            && row.fullName == row.username
            && row.role == MemberRole
            && GetUserRole(r.after, Completes) == Success(Some(MemberRole))
  {
  }

  /** A confirmed sign-in of `local@domain` for a user without a row, with
      both repair calls completing, names the new row after the local part. */
  lemma SignInNamesRowAfterLocalPart(b: Backend, local: string, domain: string, s: Session, signOut: Call)
    requires '@' !in local && s.emailConfirmed && s.userId !in b.profiles
    ensures var r := SignIn(b, local + "@" + domain, Success(s), signOut, Completes, Completes);
            && r.out == Success(())
            && r.after.profiles == b.profiles[s.userId := Profile(s.userId, Usernames.Replace(local, '.', '_'), Usernames.Replace(local, '.', '_'), MemberRole)]
  {
    Usernames.FallbackOfAddress(local, domain);
  }

  /** ensureProfileExists for a session whose e-mail is `local@domain` and a
      user without a row, both calls completing, inserts exactly the member
      row named after the local part with dots replaced. */
  lemma EnsureProfileNamesRowAfterLocalPart(b: Backend, local: string, domain: string)
    requires '@' !in local
    requires b.session.Some? && b.session.value.email == Some(local + "@" + domain)
    requires b.session.value.userId !in b.profiles
    ensures var id := b.session.value.userId;
            var n := Usernames.Replace(local, '.', '_');
            EnsureProfileExists(b, Completes, Completes) == Step(true, b.(profiles := b.profiles[id := Profile(id, n, n, MemberRole)]))
  {
    Usernames.FallbackOfAddress(local, domain);
  }

  /** After a refresh, the repository's session readers see exactly the
      session the refresh produced: a successful refresh signs in its user,
      and a refresh that leaves no session leaves nobody to look up. */
  lemma RefreshSessionSetsCurrentUser(b: Backend, reply: Result<Option<Session>>, lookup: Call)
    ensures var r := RefreshSession(b, reply);
            r.out.Success? ==> CurrentUserId(r.after) == Some(r.out.data.userId)
    ensures var r := RefreshSession(b, reply);
            reply == Success(None) ==>
              && r.out == Error(RefreshFailed)
              && CurrentUserId(r.after).None?
              && GetUserRole(r.after, lookup) == Success(None)
  {
  }

  /** No operation stores a row under a key other than the row's own id. */
  lemma OperationsKeepRowsKeyed(b: Backend, email: string, draws: seq<int>, signUpReply: Result<Option<Session>>,
                                signInReply: Result<Session>, refreshReply: Result<Option<Session>>, call: Call,
                                lookup: Call, insert: Call)
    requires WellKeyed(b.profiles) && Usernames.ValidDraws(draws)
    ensures WellKeyed(SignUp(b, draws, signUpReply, lookup, insert).after.profiles)
    ensures WellKeyed(SignIn(b, email, signInReply, call, lookup, insert).after.profiles)
    ensures WellKeyed(EnsureProfileExists(b, lookup, insert).after.profiles)
    ensures WellKeyed(RefreshSession(b, refreshReply).after.profiles)
    ensures WellKeyed(SignOut(b, call).after.profiles)
  {
    var up := SignUp(b, draws, signUpReply, lookup, insert).after;
    if up.session.Some? {
      InsertsAtMostKeepsRows(b.profiles, up.profiles, up.session.value.userId, Usernames.AnonUsername(draws));
    }
    var inr := SignIn(b, email, signInReply, call, lookup, insert);
    if signInReply.Success? && signInReply.data.emailConfirmed {
      InsertsAtMostKeepsRows(b.profiles, inr.after.profiles, signInReply.data.userId, Usernames.FallbackUsername(email));
    }
    var ens := EnsureProfileExists(b, lookup, insert);
    if b.session.Some? {
      InsertsAtMostKeepsRows(b.profiles, ens.after.profiles, b.session.value.userId, SessionFallbackUsername(b.session.value));
    }
  }
}

=== FILE: usernames.dfy ===
/** The two usernames the auth repository makes up on a user's behalf: the
    random `anon-XXXXXXXX` handle given at sign-up, and the handle derived from
    an e-mail address when a profile row has to be repaired. */
module Usernames {

  /** The characters the anonymous suffix is drawn from. */
  const Alphabet: string := "abcdefghijklmnopqrstuvwxyz0123456789"
  const AnonPrefix: string := "anon-"
  /** Number of random characters after the prefix. */
  const SuffixLength: nat := 8

  // ---------------------------------------------------------------------------
  // Kotlin string primitives
  // ---------------------------------------------------------------------------

  /** `String.indexOf(c)`: the first position of `c`, or -1 when it is absent. */
  function IndexOf(s: string, c: char): (i: int)
    ensures -1 <= i < |s|
    ensures i == -1 <==> c !in s
    ensures 0 <= i ==> s[i] == c && c !in s[..i]
  {
    if s == [] then -1
    else if s[0] == c then 0
    else
      var j := IndexOf(s[1..], c);
      if j == -1 then -1
      else
        assert s[..j + 1] == [s[0]] + s[1..][..j];
        j + 1
  }

  /** `String.substringBefore(delim)`: the text before the first `delim`, or
      the whole string when `delim` does not occur. */
  function SubstringBefore(s: string, delim: char): (r: string)
    ensures r <= s
    ensures delim !in r
    ensures delim in s ==> |r| < |s| && s[|r|] == delim
    ensures delim !in s ==> r == s
  {
    var i := IndexOf(s, delim);
    if i == -1 then s else s[..i]
  }

  /** `String.replace(target, replacement)` for one-character strings: every
      occurrence is replaced, everything else is kept in place. */
  function Replace(s: string, target: char, replacement: char): (r: string)
    ensures |r| == |s|
    ensures forall i :: 0 <= i < |s| ==> r[i] == (if s[i] == target then replacement else s[i])
  {
    if s == [] then []
    else [if s[0] == target then replacement else s[0]] + Replace(s[1..], target, replacement)
  }

  // ---------------------------------------------------------------------------
  // Anonymous username (AuthRepository.generateAnonUsername)
  // ---------------------------------------------------------------------------

  /** Eight results of `Random.nextInt(36)`, each an index into Alphabet. */
  predicate ValidDraws(draws: seq<int>) {
    |draws| == SuffixLength && forall k :: 0 <= k < |draws| ==> 0 <= draws[k] < |Alphabet|
  }

  /** The pattern `anon-[a-z0-9]{8}`. */
  predicate IsAnonUsername(s: string) {
    && |s| == |AnonPrefix| + SuffixLength
    && s[..|AnonPrefix|] == AnonPrefix
    && forall i :: |AnonPrefix| <= i < |s| ==> s[i] in Alphabet
  }

  /** Maps every draw to its character and joins the characters in order. */
  function Pick(draws: seq<int>): (r: string)
    requires forall k :: 0 <= k < |draws| ==> 0 <= draws[k] < |Alphabet|
    ensures |r| == |draws|
    ensures forall k :: 0 <= k < |draws| ==> r[k] == Alphabet[draws[k]]
  {
    if draws == [] then [] else [Alphabet[draws[0]]] + Pick(draws[1..])
  }

  /** The generated handle; the randomness is the sequence of draws. */
  function AnonUsername(draws: seq<int>): (r: string)
    requires ValidDraws(draws)
    ensures IsAnonUsername(r)
    ensures forall k :: 0 <= k < SuffixLength ==> r[|AnonPrefix| + k] == Alphabet[draws[k]]
  {
    AnonPrefix + Pick(draws)
  }

  /** Draws that pick exactly the characters of `suffix`. */
  lemma {:induction false} DrawsFor(suffix: string) returns (draws: seq<int>)
    requires forall i :: 0 <= i < |suffix| ==> suffix[i] in Alphabet
    ensures |draws| == |suffix|
    ensures forall k :: 0 <= k < |draws| ==> 0 <= draws[k] < |Alphabet|
    ensures Pick(draws) == suffix
  {
    if suffix == [] {
      draws := [];
    } else {
      var rest := DrawsFor(suffix[1..]);
      draws := [IndexOf(Alphabet, suffix[0])] + rest;
      assert draws[1..] == rest;
    }
  }

  /** Every string of the anonymous pattern is produced by some draws, so the
      pattern describes the generator's range exactly. */
  lemma EveryAnonUsernameIsGenerated(s: string)
    requires IsAnonUsername(s)
    ensures exists draws :: ValidDraws(draws) && AnonUsername(draws) == s
  {
    var p := |AnonPrefix|;
    var draws := DrawsFor(s[p..]);
    assert s == s[..p] + s[p..];
    assert AnonUsername(draws) == s;
  }

  // ---------------------------------------------------------------------------
  // Fallback username (AuthRepository.signIn / ensureProfileExists)
  // ---------------------------------------------------------------------------

  /** `email.substringBefore("@").replace(".", "_")`. */
  function FallbackUsername(email: string): (r: string)
    ensures '.' !in r && '@' !in r
    ensures |r| == |SubstringBefore(email, '@')| <= |email|
    ensures forall i :: 0 <= i < |r| ==> r[i] == (if email[i] == '.' then '_' else email[i])
    ensures '@' !in email ==> |r| == |email|
  {
    var local := SubstringBefore(email, '@');
    var r := Replace(local, '.', '_');
    assert forall i :: 0 <= i < |local| ==> local[i] == email[i];
    r
  }

  /** For an address `local@domain` whose local part has no `@`, the fallback
      is the local part with its dots turned into underscores, whatever the
      domain holds (including further `@`s). */
  lemma FallbackOfAddress(local: string, domain: string)
    requires '@' !in local
    ensures FallbackUsername(local + "@" + domain) == Replace(local, '.', '_')
  {
    var email := local + "@" + domain;
    var before := SubstringBefore(email, '@');
    assert email[|local|] == '@';
    assert |before| == |local|;
    assert before == email[..|local|];
    assert email[..|local|] == local;
  }
}

=== FILE: wrappers.dfy ===
/** Option and the two-variant result type the repository returns across its
    boundary instead of throwing. */
module Wrappers {

  /** A nullable value: `None` stands for Kotlin's `null`. */
  datatype Option<+T> = None | Some(value: T) {

    /** The value, or `default` when there is none (Kotlin's `?:`). */
    function GetOr(default: T): T {
      match this
      case Some(v) => v
      case None => default
    }
  }

  /** `Result.Success(data)` or `Result.Error(exception)`; an exception is
      represented by its message. */
  datatype Result<+T> = Success(data: T) | Error(message: string)
}

=== FILE: zoom.dfy ===
/** The gesture state machine of the image zoom dialog: the view state is a
    scale and a pan offset, each handler is a pure transition, and the output
    of a transition is the next view state plus whether the dialog asks to be
    dismissed. Scale and offset are reals. */
module ImageZoom {

  datatype Offset = Offset(x: real, y: real) {
    function Plus(d: Offset): Offset {
      Offset(x + d.x, y + d.y)
    }
  }

  const Zero: Offset := Offset(0.0, 0.0)
  const MinScale: real := 1.0
  const MaxScale: real := 5.0
  /** The scale a double tap zooms to from rest. */
  const DoubleTapScale: real := 2.5

  datatype View = View(scale: real, offset: Offset)

  /** The state the dialog starts in and returns to on reset. */
  const AtRest: View := View(MinScale, Zero)

  datatype Event =
    | Transform(zoomChange: real, panChange: Offset)  // pinch / pan
    | Tap                  // single tap on the backdrop
    | DoubleTap
    | CloseButton
    | DismissRequest       // the platform's dismiss request (back press)
    | ImageChanged         // a new image URL is shown

  datatype Reaction = Reaction(next: View, dismiss: bool)

  /** Kotlin's `coerceIn(lo, hi)`. */
  function CoerceIn(v: real, lo: real, hi: real): (r: real)
    requires lo <= hi
    ensures lo <= r <= hi
    ensures lo <= v <= hi ==> r == v
    ensures v < lo ==> r == lo
    ensures hi < v ==> r == hi
  {
    if v < lo then lo else if hi < v then hi else v
  }

  /** The transformable-state callback: scale by `zoomChange`, clamp, and pan
      only while zoomed in. */
  function OnTransform(v: View, zoomChange: real, panChange: Offset): (r: View)
    ensures MinScale <= r.scale <= MaxScale
    ensures MinScale <= v.scale * zoomChange <= MaxScale ==> r.scale == v.scale * zoomChange
    ensures v.scale * zoomChange <= MinScale ==> r.scale == MinScale
    ensures MaxScale <= v.scale * zoomChange ==> r.scale == MaxScale
    ensures MinScale < r.scale ==> r.offset == v.offset.Plus(panChange)
    ensures r.scale == MinScale ==> r.offset == Zero
  {
    var scale := CoerceIn(v.scale * zoomChange, MinScale, MaxScale);
    if scale > MinScale then View(scale, v.offset.Plus(panChange)) else View(scale, Zero)
  }

  /** The double-tap handler: reset when zoomed in, otherwise zoom to the
      fixed scale without moving. */
  function OnDoubleTap(v: View): (r: View)
    ensures MinScale < v.scale ==> r == AtRest
    ensures v.scale <= MinScale ==> r.scale == DoubleTapScale && r.offset == v.offset
  {
    if v.scale > MinScale then AtRest else v.(scale := DoubleTapScale)
  }

  /** One event; only taps and the two dismissal paths can dismiss. */
  function Step(v: View, e: Event): (r: Reaction)
    ensures e.Tap? ==> r.next == v && (r.dismiss <==> v.scale <= MinScale)
    ensures e.CloseButton? || e.DismissRequest? ==> r == Reaction(v, true)
    ensures e.ImageChanged? ==> r == Reaction(AtRest, false)
    ensures e.Transform? || e.DoubleTap? ==> !r.dismiss
    ensures e.Transform? ==> r.next == OnTransform(v, e.zoomChange, e.panChange)
    ensures e.DoubleTap? ==> r.next == OnDoubleTap(v)
  {
    match e
    case Transform(zoom, pan) => Reaction(OnTransform(v, zoom, pan), false)
    case Tap => Reaction(v, v.scale <= MinScale)
    case DoubleTap => Reaction(OnDoubleTap(v), false)
    case CloseButton => Reaction(v, true)
    case DismissRequest => Reaction(v, true)
    case ImageChanged => Reaction(AtRest, false)
  }

  /** The scale stays within bounds and the image is centred whenever it is
      not zoomed in. */
  predicate Inv(v: View) {
    MinScale <= v.scale <= MaxScale && (v.scale == MinScale ==> v.offset == Zero)
  }

  lemma StepKeepsInvariant(v: View, e: Event)
    requires Inv(v)
    ensures Inv(Step(v, e).next)
  {
  }

  /** Events in order until the first one that dismisses the dialog. */
  function Run(v: View, events: seq<Event>): (r: Reaction)
    ensures Inv(v) ==> Inv(r.next)
    ensures (forall i :: 0 <= i < |events| ==> events[i].Transform?) ==> !r.dismiss
    decreases |events|
  {
    if events == [] then Reaction(v, false)
    else
      var first := Step(v, events[0]);
      if first.dismiss then first else Run(first.next, events[1..])
  }

  /** From the initial state, any sequence of events keeps the invariant;
      in particular every pinch sequence keeps the scale in [1, 5]. */
  lemma ReachableViewsSatisfyInvariant(events: seq<Event>)
    ensures Inv(Run(AtRest, events).next)
    ensures MinScale <= Run(AtRest, events).next.scale <= MaxScale
  {
  }

  /** With the invariant, a single tap dismisses exactly at rest. */
  lemma TapDismissesExactlyAtRest(v: View)
    requires Inv(v)
    ensures Step(v, Tap).dismiss <==> v == AtRest
  {
  }

  /** Double tap toggles: from rest it zooms in, and a second double tap
      comes back to rest. */
  lemma DoubleTapToggles(v: View)
    requires Inv(v)
    ensures v == AtRest ==> OnDoubleTap(v) == View(DoubleTapScale, Zero)
    ensures OnDoubleTap(OnDoubleTap(v)) == (if v == AtRest then AtRest else View(DoubleTapScale, Zero))
  {
  }

  /** Pinching never leaves the bounds: from any state, even one outside the
      invariant, and for any factors, a non-empty run of pinch/pan events ends
      with the scale in [1, 5] and the image centred at scale 1. */
  lemma {:induction false} PinchSequenceStaysInBounds(v: View, events: seq<Event>)
    requires |events| > 0
    requires forall i :: 0 <= i < |events| ==> events[i].Transform?
    ensures Inv(Run(v, events).next)
  {
    var first := Step(v, events[0]);
    assert Inv(first.next);
    assert Run(v, events) == Run(first.next, events[1..]);
  }
}
